=== FILE: README.md ===
# Daily time limits for websites: a Dafny model

The extension lets a user give a website (a *site key* such as `example.com`)
a daily limit in minutes. Its background page has three jobs:

- It keeps an in-memory map `activeTabs` from tab id to a *session*: the
  matched site key and the time tracking started.
- Every few seconds it writes each session's elapsed whole minutes into the
  persisted `sites` registry. When a site reaches its limit, the tab is
  navigated to a blocking page.
- Once a day it resets every site that was not yet reset today.

The popup validates and normalises a new site entry. It edits the registry
when the add and delete buttons are used, and it shows each site's remaining
time as a label with a colour.

The model has five modules:

- `Wrappers`: the `Option` type.
- `SiteRegistry`: the `sites` object. `Registry` is a class holding the
  contents (`map`) together with the `Object.keys` order (an insertion-ordered
  `seq`).
- `DomainMatcher`: `extractDomain` after URL parsing, JavaScript's
  `String.prototype.includes`, and `findMatchingSite`. The search loop is a
  method, checked against a function.
- `Background`: the `Engine` class, which owns `activeTabs` and shares the
  registry with the popup. It has one method per handler: `tabs.onUpdated`,
  the interval tick, `tabs.onRemoved`, the daily reset, `alarms.onAlarm` and
  `runtime.onMessage`.
- `Popup`: `trim`, the scheme and `www.` stripping, the add-button check,
  `addSite` and `deleteSite`, and the timer label and colour.

Each storage `get → change → set` callback chain is modelled as one atomic
step on the `Registry` object. Things the code gets from the browser are
parameters:

- the time `Date.now()`, as epoch milliseconds;
- the day `toDateString()`, as an opaque string;
- the outcome of `parseInt`, as `Option<int>` with `None` for `NaN`;
- the hostname from `new URL`, as `Option<string>` with `None` when it throws.

A navigation to the blocking page is returned as a `Block` record, and a
message sent to the background is returned as a `Request` value.

Behaviours of the code worth knowing, all of which the model keeps:

- There is no lazy reset. A site with yesterday's overage is still blocked on
  navigation until the daily alarm runs (`Background.Engine.OnUpdated`).
- Every session accrues time, whether or not its tab is in the foreground.
- A tick *overwrites* `timeSpent` with the session's elapsed minutes since it
  started; it does not add to it. When several tabs have sessions for the same
  site, the highest tab id wins (`Background.TickOutcome`).
- A navigation restarts the session of its tab.
- Closing a tab drops its session without writing anything.
- `siteDeleted` removes the key but leaves the sessions for it in place. Such
  sessions are skipped by later ticks.
- `getTimeSpent` adds the *largest* elapsed time of the site's sessions, not
  their sum.
- There is no near-limit warning and no foreground tracking.
- A bare scheme such as "https://" passes the add button's check and is stored
  as the empty key. `findMatchingSite` returns that key for every domain
  that is not itself a key and includes no earlier key, but the navigation handler treats it as no match, so
  nothing is ever tracked under it (`Background.EmptyKeyIgnored`).

## Model

| member | source | states |
|---|---|---|
| SiteRegistry.Upserted | background.js:151-155 | key order after an assignment: the same keys plus the new one, old order kept as a prefix, at most one key longer, no duplicates |
| SiteRegistry.Without | background.js:158 | key order after a `delete`: exactly the other keys, no duplicates, unchanged when the key was absent |
| SiteRegistry.WithoutAt | background.js:158 | deleting the key at position i closes the gap: the keys before and after i keep their order |
| SiteRegistry.Registry.constructor | background.js:50 | with nothing stored, the registry is empty and satisfies the registry invariant |
| SiteRegistry.Registry.Put | background.js:151-155 | the record for the key is replaced or added, the key order is the upserted order, and the keys of the order and of the map stay equal and distinct |
| SiteRegistry.Registry.Remove | background.js:158 | only that key leaves both the map and the key order; the invariant is kept |
| DomainMatcher.IncludesAt | background.js:33 | `includes` holds exactly when the substring occurs at some index |
| DomainMatcher.RemoveFirst | background.js:17 | a string-pattern `replace` removes one occurrence or nothing: the length is unchanged or shorter by the pattern's length |
| DomainMatcher.RemoveFirstAt | background.js:17 | when the first occurrence is at i, exactly that occurrence is cut out |
| DomainMatcher.RemoveFirstAbsent | background.js:17 | when the pattern does not occur, the string is unchanged |
| DomainMatcher.ExtractDomain | background.js:14-21 | null exactly when URL parsing fails; otherwise the hostname, possibly 4 characters shorter |
| DomainMatcher.ExtractDomainSpec | background.js:17 | a hostname without "www." is returned as is; otherwise only its first "www." is cut, wherever it stands |
| DomainMatcher.ExtractDomainInnerWww | background.js:17 | an inner "www." is removed too: `a.www.b` becomes `a.b` |
| DomainMatcher.FirstContained | background.js:32-36 | the key found is a key the domain includes; none is found exactly when the domain includes no key |
| DomainMatcher.FirstContainedIsFirst | background.js:32-36 | the key found is the first one, in `Object.keys` order, that the domain includes |
| DomainMatcher.MatchSite | background.js:25-39 | a domain that is itself a key wins; otherwise the result is the first included key in key order (`FirstContained`); no match exactly when it is not a key and includes no key; the match is a tracked key included in the domain |
| DomainMatcher.FindMatchingSite | background.js:25-39 | the lookup and the `for … of` loop compute exactly `MatchSite` |
| DomainMatcher.ExactBeatsEarlierSubstring | background.js:27-35 | an exact key wins over an earlier key that is only a substring |
| DomainMatcher.SubstringFalsePositive | background.js:33 | matching is by plain substring: key `b.com` claims `ab.com` |
| Background.Elapsed | background.js:89 | whole minutes rounded down: bracketed by the elapsed milliseconds, never negative when time has not gone back |
| Background.ResetAll | background.js:123-140 | same keys; every site ends with lastReset today and its limit kept; a site not yet reset today gets usage 0; a site already reset today is unchanged |
| Background.ResetAllIdempotent | background.js:130-136 | sweeping twice on one day is the same as sweeping once |
| Background.NavigationMatch | background.js:42-57 | a match happens only for a completed load with a parseable URL and a non-empty domain, and it is then exactly what `findMatchingSite` returns for that domain; an answer of `""` or none is no match, as `if (matchedSite)` treats it; conversely, a non-empty answer for a completed load is always taken |
| Background.EmptyFirstKeyIgnored | background.js:32-57 | with the empty key first, whatever keys follow, a navigation to a domain that is not itself a key is ignored |
| Background.EmptyKeyIgnored | background.js:53-57 | with the empty key as the only key, `findMatchingSite` returns it for every other domain, yet no navigation is tracked |
| Background.TimeSpentReplyUnique | background.js:169-187 | the `getTimeSpent` reply is determined by the registry, sessions and time |
| Background.UsageVisit | background.js:87-93 | visiting the next session in tab id order keeps the registry progress: sites and limits unchanged, usage of the highest visited session per site |
| Background.TabsVisit | background.js:98-107 | visiting a session drops it exactly when it is overdue |
| Background.LogVisit | background.js:98-104 | visiting a session logs a block for it exactly when it is overdue, after all earlier ones |
| Background.VisitStep | background.js:83-112 | one `forEach` step: the block decision on the charged record is exactly "overdue", and all progress is kept |
| Background.TickDone | background.js:83-112 | once every session has been visited, the progress is the tick's outcome |
| Background.Sweep | background.js:83-112 | the `forEach` over the sessions yields `TickOutcome`: keys, limits and reset days unchanged; sites without sessions unchanged; a site's usage is its highest tab's elapsed minutes; exactly the overdue sessions are dropped and blocked, in tab id order |
| Background.Engine.constructor | background.js:2 | no session is tracked at start-up |
| Background.Engine.OnUpdated | background.js:42-77 | no match, or a match on the empty key: nothing happens. Match at or over its limit: the tab is blocked and the sessions are unchanged. Otherwise the tab's session is (re)started now. The registry is never written |
| Background.Engine.Tick | background.js:80-113 | the registry and the sessions are replaced by the outcome of the sweep; the key order is unchanged |
| Background.Engine.OnRemoved | background.js:116-121 | exactly that tab's session is removed |
| Background.Engine.ResetDailyLimits | background.js:123-140 | the `Object.keys` loop leaves the registry equal to `ResetAll`, with the key order unchanged |
| Background.Engine.OnAlarm | background.js:7-11 | only the `dailyReset` alarm resets; any other alarm changes nothing |
| Background.Engine.TimeSpent | background.js:163-188 | the reply is 0 for an untracked site; otherwise the stored minutes plus the largest non-negative elapsed minutes of that site's sessions |
| Background.Engine.OnMessage | background.js:143-191 | `siteAdded` upserts a fresh record dated today; `siteDeleted` removes the key; `getTimeSpent` replies as above and writes nothing; any other action changes nothing |
| Popup.TrimStart | popup.js:15 | a suffix of the input; everything cut is white space; the result starts with a non-white character |
| Popup.TrimEnd | popup.js:15 | a prefix of the input; everything cut is white space; the result ends with a non-white character |
| Popup.Trim | popup.js:15 | no longer than the input; a non-empty result starts and ends with non-white characters |
| Popup.TrimEmpty | popup.js:15-18 | `trim` is empty exactly when the input is all white space |
| Popup.TrimSlice | popup.js:15 | what `trim` keeps is the slice right after the leading white space |
| Popup.TrimTail | popup.js:15 | everything after what `trim` keeps is white space |
| Popup.TrimIsSlice | popup.js:15 | `trim` keeps one contiguous slice with only white space before and after it |
| Popup.Normalise | popup.js:20 | the result is a suffix of the input; what is cut is exactly one of "", "www.", "http://", "https://", "http://www.", "https://www."; an input starting with none of them is unchanged |
| Popup.NormaliseHttps | popup.js:20 | after a leading "https://", the cut starts with it, and is "https://www." exactly when "www." follows |
| Popup.NormaliseHttp | popup.js:20 | after a leading "http://", the cut starts with it, and is "http://www." exactly when "www." follows |
| Popup.NormaliseWww | popup.js:20 | a leading "www." with no scheme is cut, and nothing more |
| Popup.NormaliseStrips | popup.js:20 | a leading "http://" or "https://" is always cut, together with a "www." right after it; a leading "www." alone is cut exactly |
| Popup.NormaliseOneWww | popup.js:20 | only one leading "www." goes |
| Popup.NormaliseOneScheme | popup.js:20 | only one scheme goes, and the scheme is matched case-sensitively |
| Popup.ValidateInput | popup.js:14-20 | accepted exactly when the input has a non-white character and the parsed limit is a positive number; the key is the normalised trimmed input |
| Popup.EmptyKeyAccepted | popup.js:15-20 | the check runs before normalisation, so "https://" is accepted as the empty key |
| DomainMatcher.EmptyKeyMatches | background.js:27-35 | the empty key is included in every domain, so `findMatchingSite` always finds a match; as the first key, it is returned for every domain that is not itself a key |
| Popup.AddSite | popup.js:46-65 | the key gets a fresh record dated today, replacing any earlier one; a `siteAdded` notice follows |
| Popup.DeleteSite | popup.js:155-169 | only that key is removed; a `siteDeleted` notice follows |
| Popup.OnAddClick | popup.js:14-25 | a rejected entry changes nothing and sends nothing; an accepted one is stored under its normalised key and announced |
| Popup.AddAndNotify | background.js:146-159 | a click followed, on the same day, by the background's handling of its `siteAdded` notice leaves the registry exactly as the click alone does |
| Popup.TimeLeft | popup.js:125 | never negative; 0 exactly when the limit is used up; otherwise usage plus what is left is the limit |
| Popup.Decimal | popup.js:134-138 | a template literal prints decimal digits, never empty, with a leading "0" only for 0 |
| Popup.DecimalValue | popup.js:134-138 | the digits a template literal prints read back as the number |
| Popup.Seconds | popup.js:130 | with whole-minute values the seconds field is always 0 |
| Popup.DisplayHours | popup.js:128-134 | from 60 minutes left the label reads as "Hh Mm" with H the whole hours and M the minutes under an hour |
| Popup.DisplayMinutes | popup.js:128-136 | from 1 to 59 minutes left the label reads as "Mm Ss" with M the minutes left and S equal to 0 |
| Popup.DisplayRoundTrip | popup.js:128-139 | the label takes the "Hh Mm" form exactly from 60 minutes left (H whole hours, M < 60, 60H + M the minutes left), "Mm Ss" exactly from 1 to 59 (M the minutes left, S = 0), "Ss" exactly at 0 (S = 0); in every form it reads back as exactly the minutes left |
| Popup.TimerColour | popup.js:144-150 | red below 5 minutes left, orange from 5 to below 15, green from 15 |
| Popup.Css | popup.js:145-149 | each bucket gets its own CSS colour: `#e74c3c` exactly for red, `#f39c12` for orange, `#2ecc71` for green |
| Popup.ColourMonotone | popup.js:144-150 | more time left never gives a more urgent colour |
| Popup.UpdateTimerDisplay | popup.js:117-153 | nothing changes without a reply; otherwise the CSS colour is `#e74c3c`, `#f39c12` or `#2ecc71` by limit minus reply (below 5, below 15, otherwise), and the text is "(" + label + " left)", where the label has the form and the fields `DisplayRoundTrip` gives for the minutes left |
| Popup.BlockedShowsZero | popup.js:125-141 | a site at or over its limit shows "0s" in red, and "0s" is shown only for such a site |

## Left out

- `content.js` and the blocking page are not part of this model.
- The popup's refresh button (popup.js:27-44) is not modelled: its message replies race with its own save.
- The DOM: `loadSites`, the list rendering and clearing the input fields.
- `parseInt` (hexadecimal prefixes, leading digits of a float, `NaN`) and `new URL` are not modelled. Their outcomes are parameters.
- `encodeURIComponent` and the blocking page's URL: a block is a `(tab id, site key)` record.
- `Object.keys` puts integer-like keys first. The model uses plain insertion order for every key.
- Tab ids are `int`, and a tick visits sessions in ascending tab id order. That is the `Object.entries` order only for non-negative ids, which are the only ones the browser assigns; a negative id, listed after the others in insertion order, is not modelled.
- Keys inherited from `Object.prototype` (`constructor`, `__proto__`) are not modelled.
- Background.Engine.TimeSpent: reads one `now` for the whole reply, where the code calls `Date.now()` once per session.
- Asynchrony: each storage callback chain is one atomic step. The lost updates possible when callbacks interleave (for example between the per-session `get`/`set` pairs of one tick) are not modelled.
- Background.Engine.Tick: the registry is written once after all sessions are visited. The code writes once per session, but no other step can observe the difference in this sequential model.
- Storage failures, a failing `chrome.tabs.update`, alarm scheduling, logging and the 5-second and 1-second timers are not modelled.
- Integer limits and times are unbounded. JavaScript number formatting at or above 1e21 and fractional limits are not modelled.

=== FILE: background.dfy ===
/**
 * The background tracking engine: the in-memory session map `activeTabs`
 * and the handlers that move it and the persisted registry between states.
 * Each storage `get -> mutate -> set` callback chain is one atomic step; the
 * current time (`Date.now()`, epoch milliseconds) and the current day
 * (`toDateString()`) come in as parameters; a navigation of a tab to the
 * blocking page is reported as a `Block` record.
 */
module Background {
  import opened Wrappers
  import opened SiteRegistry
  import opened DomainMatcher

  const MillisPerMinute := 60000

  /** The alarm that triggers the daily reset sweep. */
  const DailyResetAlarm := "dailyReset"

  /** An entry of `activeTabs`: the matched site key and when tracking started. */
  datatype Session = Session(domain: string, startTime: int)

  /** `chrome.tabs.update(tabId, {url: blocked.html?site=...})`. */
  datatype Block = Block(tabId: int, site: string)

  /** The messages the background listens for; any other action is ignored. */
  datatype Request =
    | SiteAdded(site: string, timeLimit: int)
    | SiteDeleted(site: string)
    | GetTimeSpent(site: string)
    | OtherAction(action: string)

  /** `Math.floor((now - startTime) / 60000)`: whole minutes elapsed, rounded down. */
  function Elapsed(now: int, startTime: int): (r: int)
    ensures r * MillisPerMinute <= now - startTime < (r + 1) * MillisPerMinute
    ensures now >= startTime ==> r >= 0
  {
    (now - startTime) / MillisPerMinute
  }

  /** A site has used up its limit. */
  predicate OverLimit(s: Site)
  {
    s.timeSpent >= s.timeLimit
  }

  /** The reset applied to one site by the daily sweep. */
  function ResetSite(s: Site, today: string): Site
  {
    if s.lastReset != today then s.(timeSpent := 0, lastReset := today) else s
  }

  /** The registry after the daily sweep. */
  function ResetAll(sites: map<string, Site>, today: string): (r: map<string, Site>)
    ensures r.Keys == sites.Keys
    ensures forall k :: k in r ==> r[k].lastReset == today && r[k].timeLimit == sites[k].timeLimit
    ensures forall k :: k in sites && sites[k].lastReset != today ==> r[k].timeSpent == 0
    ensures forall k :: k in sites && sites[k].lastReset == today ==> r[k] == sites[k]
  {
    map k | k in sites :: ResetSite(sites[k], today)
  }

  /** Sweeping twice on the same day is the same as sweeping once. */
  lemma ResetAllIdempotent(sites: map<string, Site>, today: string)
    ensures ResetAll(ResetAll(sites, today), today) == ResetAll(sites, today)
  {
  }

  /** The site a completed navigation is charged to: none when the event is not
      a completed load, the URL is missing or does not parse, the extracted domain
      is empty, or no key matches. The empty key is falsy, so a navigation that
      `findMatchingSite` assigns to it is ignored as well. */
  function NavigationMatch(complete: bool, hostname: Option<string>, keys: seq<string>, sites: map<string, Site>)
    : (r: Option<string>)
    ensures r.Some? ==> complete && hostname.Some? && r.value != ""
    ensures r.Some? && (forall k :: k in keys <==> k in sites) ==> r.value in sites
    ensures r.Some? ==> Includes(ExtractDomain(hostname).value, r.value)
    ensures r.Some? ==> ExtractDomain(hostname).value != "" && r == MatchSite(ExtractDomain(hostname).value, keys, sites)
    ensures complete && ExtractDomain(hostname).Some? && ExtractDomain(hostname).value != "" ==>
              var m := MatchSite(ExtractDomain(hostname).value, keys, sites);
              m.Some? && m.value != "" ==> r == m
  {
    if !complete then None
    else
      match ExtractDomain(hostname)
      case None => None
      case Some(domain) =>
        if domain == [] then None
        else
          match MatchSite(domain, keys, sites)
          case None => None
          case Some(site) => if site == "" then None else Some(site)
  }

  /** A registry whose only key is the empty one tracks no navigation at all,
      although `findMatchingSite` returns that key for every domain. */
  lemma EmptyKeyIgnored(complete: bool, hostname: Option<string>, sites: map<string, Site>)
    requires forall k :: k in sites <==> k == ""
    ensures forall d :: d != "" ==> MatchSite(d, [""], sites) == Some("")
    ensures NavigationMatch(complete, hostname, [""], sites) == None
  {
    forall d | d != ""
      ensures MatchSite(d, [""], sites) == Some("")
    {
      EmptyKeyMatches(d, [""], sites);
    }
  }

  /** With the empty key first, a navigation to a domain that is not itself a
      key is ignored, whatever keys follow: `findMatchingSite` answers `""`. */
  lemma EmptyFirstKeyIgnored(complete: bool, hostname: Option<string>, keys: seq<string>, sites: map<string, Site>)
    requires keys != [] && keys[0] == ""
    ensures ExtractDomain(hostname).Some? && ExtractDomain(hostname).value !in sites ==>
              NavigationMatch(complete, hostname, keys, sites) == None
  {
    if ExtractDomain(hostname).Some? && ExtractDomain(hostname).value !in sites {
      EmptyKeyMatches(ExtractDomain(hostname).value, keys, sites);
    }
  }

  /** The session `t` is for a tracked site whose limit its elapsed minutes reach. */
  predicate Overdue(tabs: map<int, Session>, sites: map<string, Site>, now: int, t: int)
  {
    t in tabs && tabs[t].domain in sites && Elapsed(now, tabs[t].startTime) >= sites[tabs[t].domain].timeLimit
  }

  /** No tab in `ids` has a session for `site`. */
  predicate NoSessionIn(tabs: map<int, Session>, ids: set<int>, site: string)
  {
    forall u :: u in ids && u in tabs ==> tabs[u].domain != site
  }

  /** `t` is the highest tab id in `ids` whose session is for the same site as t's. */
  predicate LastFor(tabs: map<int, Session>, ids: set<int>, t: int)
  {
    t in ids && t in tabs && forall u :: u in ids && u in tabs && tabs[u].domain == tabs[t].domain ==> u <= t
  }

  /** The sessions a tick keeps: all but the overdue ones. */
  function Survivors(tabs: map<int, Session>, sites: map<string, Site>, now: int): map<int, Session>
  {
    map t | t in tabs && !Overdue(tabs, sites, now, t) :: tabs[t]
  }

  /** The tab ids a block log names. */
  function BlockedTabs(blocks: seq<Block>): set<int>
  {
    set b | b in blocks :: b.tabId
  }

  lemma BlockedTabsAppend(blocks: seq<Block>, b: Block)
    ensures BlockedTabs(blocks + [b]) == BlockedTabs(blocks) + {b.tabId}
  {
    forall t ensures t in BlockedTabs(blocks + [b]) <==> t in BlockedTabs(blocks) + {b.tabId} {
      if t in BlockedTabs(blocks + [b]) {
        var c :| c in blocks + [b] && c.tabId == t;
        if c != b {
          assert c in blocks;
        }
      }
    }
  }

  /** A block log is ordered by tab id and each entry names the tab and its session's site. */
  predicate OrderedLog(blocks: seq<Block>, tabs: map<int, Session>)
  {
    && (forall i, j :: 0 <= i < j < |blocks| ==> blocks[i].tabId < blocks[j].tabId)
    && (forall b :: b in blocks ==> b.tabId in tabs && b.site == tabs[b.tabId].domain)
  }

  /** What a `getTimeSpent` reply holds: 0 for an unknown site, otherwise the
      stored minutes plus the largest (not the sum) of the elapsed minutes of the
      sessions for that site, counted as 0 when no session has a positive one. */
  ghost predicate TimeSpentReply(sites: map<string, Site>, tabs: map<int, Session>, site: string, now: int, v: int)
  {
    if site !in sites then v == 0
    else
      var stored := sites[site].timeSpent;
      && v >= stored
      && (forall t :: t in tabs && tabs[t].domain == site ==> stored + Elapsed(now, tabs[t].startTime) <= v)
      && (v == stored || exists t :: t in tabs && tabs[t].domain == site && v == stored + Elapsed(now, tabs[t].startTime))
  }

  /** There is at most one reply. */
  lemma TimeSpentReplyUnique(sites: map<string, Site>, tabs: map<int, Session>, site: string, now: int, v: int, w: int)
    requires TimeSpentReply(sites, tabs, site, now, v) && TimeSpentReply(sites, tabs, site, now, w)
    ensures v == w
  {
  }

  /** A non-empty set of tab ids has an element. */
  lemma NonEmptyHasElement(s: set<int>)
    requires s != {}
    ensures exists x :: x in s
  {
    if forall x :: x !in s {
      assert false;
    }
  }

  /** A finite non-empty set of tab ids has a least element. */
  lemma {:induction false} MinExists(s: set<int>)
    requires s != {}
    ensures exists m :: m in s && forall u :: u in s ==> m <= u
    decreases s
  {
    NonEmptyHasElement(s);
    var x :| x in s;
    if s != {x} {
      MinExists(s - {x});
      var m :| m in s - {x} && forall u :: u in s - {x} ==> m <= u;
      var least := if x < m then x else m;
      forall u | u in s ensures least <= u {
        if u != x {
          assert u in s - {x};
        }
      }
      assert least in s;
    } else {
      assert forall u :: u in s ==> x <= u;
    }
  }

  /** Moving the least pending tab id to the visited ones keeps every visited
      id below every pending one. */
  lemma VisitLeast(done: set<int>, pending: set<int>, t: int)
    requires t in pending && forall u :: u in pending ==> t <= u
    requires forall a, b :: a in done && b in pending ==> a < b
    ensures forall a, b :: a in done + {t} && b in pending - {t} ==> a < b
  {
    forall a, b | a in done + {t} && b in pending - {t} ensures a < b {
      if a != t {
        assert b in pending;
      }
    }
  }

  /** The registry as a tick leaves it after visiting one session: a still
      tracked site gets the session's elapsed minutes as its usage. */
  function Charge(sites: map<string, Site>, data: Session, now: int): map<string, Site>
  {
    if data.domain in sites then
      sites[data.domain := sites[data.domain].(timeSpent := Elapsed(now, data.startTime))]
    else sites
  }

  /** Registry part of what a tick has established once the tab ids in `done`
      have been visited, starting from sessions `entries` and registry `sites0`. */
  ghost predicate UsageProgress(entries: map<int, Session>, sites0: map<string, Site>, now: int, done: set<int>,
                                sites: map<string, Site>)
  {
    && sites.Keys == sites0.Keys
    && (forall k :: k in sites ==> sites[k].timeLimit == sites0[k].timeLimit && sites[k].lastReset == sites0[k].lastReset)
    && (forall k :: k in sites && NoSessionIn(entries, done, k) ==> sites[k] == sites0[k])
    && (forall t :: LastFor(entries, done, t) && entries[t].domain in sites ==>
          sites[entries[t].domain].timeSpent == Elapsed(now, entries[t].startTime))
  }

  /** Session part: exactly the overdue visited sessions are gone. */
  ghost predicate TabsProgress(entries: map<int, Session>, sites0: map<string, Site>, now: int, done: set<int>,
                               tabs: map<int, Session>)
  {
    && (forall t :: t in tabs <==> t in entries && !(t in done && Overdue(entries, sites0, now, t)))
    && (forall t :: t in tabs ==> tabs[t] == entries[t])
  }

  /** Log part: the overdue visited sessions are logged, in tab id order. */
  ghost predicate LogProgress(entries: map<int, Session>, sites0: map<string, Site>, now: int, done: set<int>,
                              blocks: seq<Block>)
  {
    && OrderedLog(blocks, entries)
    && (forall b :: b in blocks ==> b.tabId in done)
    && (forall t :: t in BlockedTabs(blocks) <==> t in done && Overdue(entries, sites0, now, t))
  }

  /** Visiting the next session in tab id order charges its site, and leaves
      the site's usage equal to the elapsed minutes of its highest-numbered
      visited session. */
  lemma UsageVisit(entries: map<int, Session>, sites0: map<string, Site>, now: int, done: set<int>,
                   sites: map<string, Site>, t: int)
    requires UsageProgress(entries, sites0, now, done, sites)
    requires t in entries && t !in done && forall a :: a in done ==> a < t
    ensures UsageProgress(entries, sites0, now, done + {t}, Charge(sites, entries[t], now))
  {
    var data := entries[t];
    var d := data.domain;
    var sites' := Charge(sites, data, now);
    var done' := done + {t};
    forall k | k in sites' && NoSessionIn(entries, done', k) ensures sites'[k] == sites0[k] {
      assert NoSessionIn(entries, done, k);
    }
    forall u | LastFor(entries, done', u) && entries[u].domain in sites'
      ensures sites'[entries[u].domain].timeSpent == Elapsed(now, entries[u].startTime)
    {
      if u != t {
        assert LastFor(entries, done, u);
      }
    }
  }

  /** Visiting a session drops it exactly when it is overdue. */
  lemma TabsVisit(entries: map<int, Session>, sites0: map<string, Site>, now: int, done: set<int>,
                  tabs: map<int, Session>, t: int)
    requires TabsProgress(entries, sites0, now, done, tabs)
    requires t in entries && t !in done
    ensures TabsProgress(entries, sites0, now, done + {t},
                         if Overdue(entries, sites0, now, t) then tabs - {t} else tabs)
  {
  }

  /** Visiting a session logs it exactly when it is overdue, after every earlier entry. */
  lemma LogVisit(entries: map<int, Session>, sites0: map<string, Site>, now: int, done: set<int>,
                 blocks: seq<Block>, t: int)
    requires LogProgress(entries, sites0, now, done, blocks)
    requires t in entries && t !in done && forall a :: a in done ==> a < t
    ensures LogProgress(entries, sites0, now, done + {t},
                        if Overdue(entries, sites0, now, t) then blocks + [Block(t, entries[t].domain)] else blocks)
  {
    if Overdue(entries, sites0, now, t) {
      BlockedTabsAppend(blocks, Block(t, entries[t].domain));
    }
  }

  /** One step of a tick: the next session in tab id order charges its site,
      is dropped and logged exactly when it is overdue, and all three parts of
      the progress are kept. */
  lemma VisitStep(entries: map<int, Session>, sites0: map<string, Site>, now: int, done: set<int>,
                  sites: map<string, Site>, tabs: map<int, Session>, blocks: seq<Block>, t: int)
    requires UsageProgress(entries, sites0, now, done, sites)
    requires TabsProgress(entries, sites0, now, done, tabs)
    requires LogProgress(entries, sites0, now, done, blocks)
    requires t in entries && t !in done && forall a :: a in done ==> a < t
    ensures var data := entries[t];
            var sites' := Charge(sites, data, now);
            var blocked := data.domain in sites' && sites'[data.domain].timeSpent >= sites'[data.domain].timeLimit;
            && (blocked <==> Overdue(entries, sites0, now, t))
            && UsageProgress(entries, sites0, now, done + {t}, sites')
            && TabsProgress(entries, sites0, now, done + {t}, if blocked then tabs - {t} else tabs)
            && LogProgress(entries, sites0, now, done + {t}, if blocked then blocks + [Block(t, data.domain)] else blocks)
  {
    UsageVisit(entries, sites0, now, done, sites, t);
    TabsVisit(entries, sites0, now, done, tabs, t);
    LogVisit(entries, sites0, now, done, blocks, t);
  }

  /** What one tick does, from sessions `entries` and registry `sites0` to the
      registry `sites`, the sessions `tabs` and the block log `blocks`:
      the same sites with the same limits and reset days; a site no session is
      for keeps its usage; a site with sessions ends with the elapsed minutes of
      its highest-numbered tab; exactly the overdue sessions are dropped, and
      they are logged in tab id order. */
  ghost predicate TickOutcome(entries: map<int, Session>, sites0: map<string, Site>, now: int,
                              sites: map<string, Site>, tabs: map<int, Session>, blocks: seq<Block>)
  {
    && sites.Keys == sites0.Keys
    && (forall k :: k in sites ==> sites[k].timeLimit == sites0[k].timeLimit && sites[k].lastReset == sites0[k].lastReset)
    && (forall k :: k in sites && NoSessionIn(entries, entries.Keys, k) ==> sites[k] == sites0[k])
    && (forall t :: LastFor(entries, entries.Keys, t) && entries[t].domain in sites ==>
          sites[entries[t].domain].timeSpent == Elapsed(now, entries[t].startTime))
    && tabs == Survivors(entries, sites0, now)
    && OrderedLog(blocks, entries)
    && (forall t :: t in BlockedTabs(blocks) <==> Overdue(entries, sites0, now, t))
  }

  /** Once every tab id has been visited, the progress is the tick's outcome. */
  lemma TickDone(entries: map<int, Session>, sites0: map<string, Site>, now: int,
                 sites: map<string, Site>, tabs: map<int, Session>, blocks: seq<Block>)
    requires UsageProgress(entries, sites0, now, entries.Keys, sites)
    requires TabsProgress(entries, sites0, now, entries.Keys, tabs)
    requires LogProgress(entries, sites0, now, entries.Keys, blocks)
    ensures TickOutcome(entries, sites0, now, sites, tabs, blocks)
  {
    var survivors := Survivors(entries, sites0, now);
    forall t ensures t in tabs <==> t in survivors {
      assert t in survivors <==> t in entries && !Overdue(entries, sites0, now, t);
    }
    assert tabs.Keys == survivors.Keys;
  }

  /** The `forEach` of the interval tick. Sessions are visited in
      `Object.entries` order (ascending tab id). For a session whose site is
      still tracked, the site's `timeSpent` is overwritten with the session's
      elapsed minutes, and the tab is blocked and its session deleted when that
      reaches the limit. */
  method Sweep(entries: map<int, Session>, sites0: map<string, Site>, now: int)
    returns (sites: map<string, Site>, tabs: map<int, Session>, blocks: seq<Block>)
    ensures TickOutcome(entries, sites0, now, sites, tabs, blocks)
  {
    sites, tabs, blocks := sites0, entries, [];
    var pending := entries.Keys;
    ghost var done: set<int> := {};
    while pending != {}
      invariant done + pending == entries.Keys && done !! pending
      invariant forall a, b :: a in done && b in pending ==> a < b
      invariant UsageProgress(entries, sites0, now, done, sites)
      invariant TabsProgress(entries, sites0, now, done, tabs)
      invariant LogProgress(entries, sites0, now, done, blocks)
      decreases pending
    {
      MinExists(pending);
      var tabId :| tabId in pending && forall u :: u in pending ==> tabId <= u;
      var data := entries[tabId];
      VisitStep(entries, sites0, now, done, sites, tabs, blocks, tabId);
      if data.domain in sites {
        var timeSpent := Elapsed(now, data.startTime);
        sites := sites[data.domain := sites[data.domain].(timeSpent := timeSpent)];
        if timeSpent >= sites[data.domain].timeLimit {
          blocks := blocks + [Block(tabId, data.domain)];
          tabs := tabs - {tabId};
        }
      }
      VisitLeast(done, pending, tabId);
      pending := pending - {tabId};
      done := done + {tabId};
    }
    TickDone(entries, sites0, now, sites, tabs, blocks);
  }

  /** The background page's state: the shared registry and the sessions. */
  class Engine {
    const store: Registry
    var activeTabs: map<int, Session>

    ghost predicate Valid()
      reads this, store
    {
      store.Valid()
    }

    /** Start-up: no session is tracked. */
    constructor (store: Registry)
      requires store.Valid()
      ensures Valid() && this.store == store && activeTabs == map[]
    {
      this.store := store;
      activeTabs := map[];
    }

    /** `tabs.onUpdated`: a tab that completes loading a tracked site is blocked
        when the site has used its limit, and otherwise starts (or restarts) a
        session at `now`. The registry is never written. */
    method OnUpdated(tabId: int, complete: bool, hostname: Option<string>, now: int)
      returns (block: Option<Block>)
      requires Valid()
      modifies this
      ensures Valid()
      ensures var m := NavigationMatch(complete, hostname, store.keys, store.sites);
        && (m.None? ==> block.None? && activeTabs == old(activeTabs))
        && (m.Some? ==> m.value in store.sites)
        && (m.Some? && OverLimit(store.sites[m.value]) ==>
              block == Some(Block(tabId, m.value)) && activeTabs == old(activeTabs))
        && (m.Some? && !OverLimit(store.sites[m.value]) ==>
              block.None? && activeTabs == old(activeTabs)[tabId := Session(m.value, now)])
    {
      block := None;
      if !complete {
        return;
      }
      var domain := ExtractDomain(hostname);
      if domain.None? || domain.value == [] {
        return;
      }
      var matched := FindMatchingSite(domain.value, store.keys, store.sites);
      if matched.Some? && matched.value != "" {
        var site := store.sites[matched.value];
        if site.timeSpent >= site.timeLimit {
          block := Some(Block(tabId, matched.value));
        } else {
          activeTabs := activeTabs[tabId := Session(matched.value, now)];
        }
      }
    }

    /** The interval tick: the sweep over the sessions, whose registry and
        session map replace the stored ones. */
    method Tick(now: int) returns (blocks: seq<Block>)
      requires Valid()
      modifies this, store
      ensures Valid()
      ensures store.keys == old(store.keys)
      ensures TickOutcome(old(activeTabs), old(store.sites), now, store.sites, activeTabs, blocks)
    {
      var sites, tabs;
      sites, tabs, blocks := Sweep(activeTabs, store.sites, now);
      forall k ensures k in store.keys <==> k in sites {
        assert k in sites <==> k in store.sites;
      }
      store.sites := sites;
      activeTabs := tabs;
    }

    /** `tabs.onRemoved`: the tab's session, if any, ends; nothing else changes. */
    method OnRemoved(tabId: int)
      requires Valid()
      modifies this
      ensures Valid()
      ensures activeTabs == old(activeTabs) - {tabId}
    {
      if tabId in activeTabs {
        activeTabs := activeTabs - {tabId};
      }
    }

    /** `resetDailyLimits`: every site not yet reset today gets `timeSpent` 0 and
        `lastReset` today; sites already reset today are left alone. */
    method ResetDailyLimits(today: string)
      requires Valid()
      modifies store
      ensures Valid()
      ensures store.keys == old(store.keys)
      ensures store.sites == ResetAll(old(store.sites), today)
    {
      var keys := store.keys;
      var sites := store.sites;
      var i := 0;
      while i < |keys|
        invariant 0 <= i <= |keys|
        invariant unchanged(store)
        invariant sites.Keys == store.sites.Keys
        invariant forall k :: k in sites ==>
                    sites[k] == if k in keys[..i] then ResetSite(store.sites[k], today) else store.sites[k]
      {
        var site := keys[i];
        assert site in sites && site !in keys[..i] by {
          assert store.Valid();
        }
        assert keys[..i + 1] == keys[..i] + [site];
        if sites[site].lastReset != today {
          sites := sites[site := sites[site].(timeSpent := 0, lastReset := today)];
        }
        i := i + 1;
      }
      assert keys[..i] == keys;
      assert sites == ResetAll(store.sites, today);
      store.sites := sites;
    }

    /** `alarms.onAlarm`: only the daily-reset alarm triggers the sweep. */
    method OnAlarm(name: string, today: string)
      requires Valid()
      modifies store
      ensures Valid()
      ensures store.keys == old(store.keys)
      ensures store.sites == if name == DailyResetAlarm then ResetAll(old(store.sites), today) else old(store.sites)
    {
      if name == DailyResetAlarm {
        ResetDailyLimits(today);
      }
    }

    /** `getTimeSpent`: stored minutes plus the longest running session's minutes. */
    method TimeSpent(site: string, now: int) returns (timeSpent: int)
      requires Valid()
      ensures TimeSpentReply(store.sites, activeTabs, site, now, timeSpent)
    {
      if site !in store.sites {
        return 0;
      }
      var additionalTime := 0;
      var rest := activeTabs.Keys;
      while rest != {}
        invariant rest <= activeTabs.Keys
        invariant additionalTime >= 0
        invariant forall t :: t in activeTabs && t !in rest && activeTabs[t].domain == site ==>
                    Elapsed(now, activeTabs[t].startTime) <= additionalTime
        invariant additionalTime == 0 ||
                    (exists t :: t in activeTabs && activeTabs[t].domain == site &&
                       additionalTime == Elapsed(now, activeTabs[t].startTime))
        decreases rest
      {
        NonEmptyHasElement(rest);
        var tabId :| tabId in rest;
        var tabData := activeTabs[tabId];
        if tabData.domain == site {
          var minutes := Elapsed(now, tabData.startTime);
          if minutes > additionalTime {
            additionalTime := minutes;
          }
        }
        rest := rest - {tabId};
      }
      timeSpent := store.sites[site].timeSpent + additionalTime;
    }

    /** `runtime.onMessage`: `siteAdded` upserts a fresh record for that key,
        `siteDeleted` removes that key (sessions are left as they are),
        `getTimeSpent` answers without writing; other actions do nothing. */
    method OnMessage(request: Request, now: int, today: string) returns (response: Option<int>)
      requires Valid()
      modifies store
      ensures Valid()
      ensures request.SiteAdded? ==>
                && response.None?
                && store.sites == old(store.sites)[request.site := Site(request.timeLimit, 0, today)]
                && store.keys == Upserted(old(store.keys), request.site)
      ensures request.SiteDeleted? ==>
                && response.None?
                && store.sites == old(store.sites) - {request.site}
                && store.keys == Without(old(store.keys), request.site)
      ensures request.GetTimeSpent? ==>
                && response.Some?
                && TimeSpentReply(store.sites, activeTabs, request.site, now, response.value)
                && store.sites == old(store.sites) && store.keys == old(store.keys)
      ensures request.OtherAction? ==>
                response.None? && store.sites == old(store.sites) && store.keys == old(store.keys)
    {
      response := None;
      match request
      case SiteAdded(site, timeLimit) =>
        store.Put(site, Site(timeLimit, 0, today));
      case SiteDeleted(site) =>
        store.Remove(site);
      case GetTimeSpent(site) =>
        var v := TimeSpent(site, now);
        response := Some(v);
      case OtherAction(_) =>
    }
  }
}

=== FILE: matcher.dfy ===
/**
 * The pure half of the background script: the domain extracted from a
 * navigated URL and the tracked site it is charged to.
 */
module DomainMatcher {
  import opened Wrappers
  import opened SiteRegistry

  /** `pat` occurs in `s` starting at index `i`. */
  predicate OccursAt(s: string, pat: string, i: int)
  {
    0 <= i && i + |pat| <= |s| && s[i..i + |pat|] == pat
  }

  /** JavaScript `s.includes(sub)`: does `sub` occur somewhere in `s`? */
  predicate Includes(s: string, sub: string)
  {
    sub <= s || (|s| > 0 && Includes(s[1..], sub))
  }

  /** An occurrence at the start is a prefix. */
  lemma OccursAtZero(s: string, pat: string)
    ensures OccursAt(s, pat, 0) <==> pat <= s
  {
    if pat <= s {
      assert s[0..|pat|] == pat;
    }
  }

  /** Dropping the first character shifts every later occurrence one place left. */
  lemma OccursShift(s: string, pat: string, i: int)
    requires |s| > 0 && 0 < i
    ensures OccursAt(s, pat, i) <==> OccursAt(s[1..], pat, i - 1)
  {
    if i + |pat| <= |s| {
      assert s[1..][i - 1..i - 1 + |pat|] == s[i..i + |pat|];
    }
  }

  /** `Includes` is substring containment. */
  lemma {:induction false} IncludesAt(s: string, sub: string)
    ensures Includes(s, sub) <==> exists i :: OccursAt(s, sub, i)
  {
    OccursAtZero(s, sub);
    if sub <= s {
      assert OccursAt(s, sub, 0);
    } else if |s| > 0 {
      IncludesAt(s[1..], sub);
      forall i | 0 < i
        ensures OccursAt(s, sub, i) <==> OccursAt(s[1..], sub, i - 1)
      {
        OccursShift(s, sub, i);
      }
      if Includes(s[1..], sub) {
        var i :| OccursAt(s[1..], sub, i);
        assert OccursAt(s, sub, i + 1);
      }
    }
  }

  /** JavaScript `s.replace(pat, '')` with a string pattern: the first
      occurrence of `pat`, if any, is dropped. */
  function RemoveFirst(s: string, pat: string): (r: string)
    ensures |r| == |s| || |r| + |pat| == |s|
    decreases |s|
  {
    if pat <= s then s[|pat|..]
    else if |s| == 0 then s
    else [s[0]] + RemoveFirst(s[1..], pat)
  }

  /** When `pat` first occurs at `i`, exactly that occurrence is cut out. */
  lemma {:induction false} RemoveFirstAt(s: string, pat: string, i: int)
    requires OccursAt(s, pat, i)
    requires forall j :: 0 <= j < i ==> !OccursAt(s, pat, j)
    ensures RemoveFirst(s, pat) == s[..i] + s[i + |pat|..]
    decreases |s|
  {
    OccursAtZero(s, pat);
    if i == 0 {
      assert s[..0] + s[|pat|..] == s[|pat|..];
    } else {
      assert RemoveFirst(s, pat) == [s[0]] + RemoveFirst(s[1..], pat);
      forall j | 0 <= j < i - 1 ensures !OccursAt(s[1..], pat, j) {
        OccursShift(s, pat, j + 1);
      }
      OccursShift(s, pat, i);
      RemoveFirstAt(s[1..], pat, i - 1);
      assert s[..i] == [s[0]] + s[1..][..i - 1];
      assert s[1..][i - 1 + |pat|..] == s[i + |pat|..];
    }
  }

  /** When `pat` does not occur, nothing changes. */
  lemma {:induction false} RemoveFirstAbsent(s: string, pat: string)
    requires forall j :: !OccursAt(s, pat, j)
    ensures RemoveFirst(s, pat) == s
    decreases |s|
  {
    OccursAtZero(s, pat);
    if |s| > 0 {
      forall j | 0 <= j ensures !OccursAt(s[1..], pat, j) {
        OccursShift(s, pat, j + 1);
      }
      RemoveFirstAbsent(s[1..], pat);
    }
  }

  /** `extractDomain` after URL parsing: the hostname (None when `new URL`
      throws) with its first "www." removed, wherever it stands. */
  function ExtractDomain(hostname: Option<string>): (r: Option<string>)
    ensures r.None? <==> hostname.None?
    ensures r.Some? ==> |r.value| == |hostname.value| || |r.value| + 4 == |hostname.value|
  {
    match hostname
    case None => None
    case Some(h) => Some(RemoveFirst(h, "www."))
  }

  /** What `extractDomain` does to a parsed hostname: it cuts out the first
      "www." and only that one, or returns the hostname unchanged. */
  lemma ExtractDomainSpec(h: string)
    ensures (forall j :: !OccursAt(h, "www.", j)) ==> ExtractDomain(Some(h)) == Some(h)
    ensures forall i :: OccursAt(h, "www.", i) && (forall j :: 0 <= j < i ==> !OccursAt(h, "www.", j)) ==>
              ExtractDomain(Some(h)) == Some(h[..i] + h[i + 4..])
  {
    if forall j :: !OccursAt(h, "www.", j) {
      RemoveFirstAbsent(h, "www.");
    }
    forall i | OccursAt(h, "www.", i) && (forall j :: 0 <= j < i ==> !OccursAt(h, "www.", j))
      ensures ExtractDomain(Some(h)) == Some(h[..i] + h[i + 4..])
    {
      RemoveFirstAt(h, "www.", i);
    }
  }

  /** The "www." removed need not be a leading label. */
  lemma ExtractDomainInnerWww()
    ensures ExtractDomain(Some("a.www.b")) == Some("a.b")
  {
    var h := "a.www.b";
    assert h[0] == 'a' && h[1] == '.';
    forall j | 0 <= j < 2 ensures !OccursAt(h, "www.", j) {
      assert h[j] != 'w';
    }
    assert h[2..6] == "www.";
    RemoveFirstAt(h, "www.", 2);
    assert h[..2] + h[6..] == "a.b";
  }

  /** The first key, in key order, that occurs inside `domain`
      (the loop of `findMatchingSite`). */
  function FirstContained(domain: string, keys: seq<string>): (r: Option<string>)
    ensures r.Some? ==> r.value in keys && Includes(domain, r.value)
    ensures r.None? <==> forall k :: k in keys ==> !Includes(domain, k)
  {
    if keys == [] then None
    else if Includes(domain, keys[0]) then Some(keys[0])
    else FirstContained(domain, keys[1..])
  }

  /** The key `FirstContained` picks is the earliest one contained in the domain. */
  lemma {:induction false} FirstContainedIsFirst(domain: string, keys: seq<string>, i: int)
    requires 0 <= i < |keys| && Includes(domain, keys[i])
    requires forall j :: 0 <= j < i ==> !Includes(domain, keys[j])
    ensures FirstContained(domain, keys) == Some(keys[i])
  {
    if i > 0 {
      assert !Includes(domain, keys[0]);
      FirstContainedIsFirst(domain, keys[1..], i - 1);
    }
  }

  /** `findMatchingSite`: the domain itself when it is a key, otherwise the
      first key in key order that the domain includes, otherwise none. */
  function MatchSite(domain: string, keys: seq<string>, sites: map<string, Site>): (r: Option<string>)
    ensures domain in sites ==> r == Some(domain)
    ensures r.None? <==> domain !in sites && forall k :: k in keys ==> !Includes(domain, k)
    ensures r.Some? && (forall k :: k in keys <==> k in sites) ==> r.value in sites
    ensures r.Some? ==> Includes(domain, r.value)
    ensures domain !in sites ==> r == FirstContained(domain, keys)
  {
    if domain in sites then
      assert domain <= domain;
      Some(domain)
    else FirstContained(domain, keys)
  }

  /** The empty key is included in every domain: with it among the keys every
      domain finds a match, and when it is the first key a domain that is not
      itself a key is matched to it. */
  lemma EmptyKeyMatches(domain: string, keys: seq<string>, sites: map<string, Site>)
    requires "" in keys
    ensures MatchSite(domain, keys, sites).Some?
    ensures keys[0] == "" && domain !in sites ==> MatchSite(domain, keys, sites) == Some("")
  {
    assert [] <= domain;
    assert Includes(domain, "");
  }

  /** The search loop of `findMatchingSite`, checked against `MatchSite`. */
  method FindMatchingSite(domain: string, keys: seq<string>, sites: map<string, Site>)
    returns (r: Option<string>)
    ensures r == MatchSite(domain, keys, sites)
  {
    if domain in sites {
      return Some(domain);
    }
    var i := 0;
    while i < |keys|
      invariant 0 <= i <= |keys|
      invariant FirstContained(domain, keys[i..]) == FirstContained(domain, keys)
    {
      if Includes(domain, keys[i]) {
        return Some(keys[i]);
      }
      assert keys[i..][1..] == keys[i + 1..];
      i := i + 1;
    }
    return None;
  }

  /** An exact key wins over an earlier key that is only a substring. */
  lemma ExactBeatsEarlierSubstring()
    ensures var sites := map["a.com" := Site(30, 0, "d"), "sub.a.com" := Site(10, 0, "d")];
            && FirstContained("sub.a.com", ["a.com", "sub.a.com"]) == Some("a.com")
            && MatchSite("sub.a.com", ["a.com", "sub.a.com"], sites) == Some("sub.a.com")
  {
    assert OccursAt("sub.a.com", "a.com", 4);
    IncludesAt("sub.a.com", "a.com");
  }

  /** Containment is plain substring search, so "b.com" also claims "ab.com". */
  lemma SubstringFalsePositive()
    ensures MatchSite("ab.com", ["b.com"], map["b.com" := Site(30, 0, "d")]) == Some("b.com")
  {
    assert OccursAt("ab.com", "b.com", 1);
    IncludesAt("ab.com", "b.com");
  }
}

=== FILE: popup.dfy ===
/**
 * The popup: validation and normalisation of a new site entry, the registry
 * edits behind its add and delete buttons, and the remaining-time label with
 * its colour.
 */
module Popup {
  import opened Wrappers
  import opened SiteRegistry
  import opened DomainMatcher
  import opened Background

  /** The characters JavaScript's `trim` removes: white space and line terminators. */
  predicate IsWhitespace(c: char)
  {
    || c == '\t' || c == '\n' || c == '\U{B}' || c == '\U{C}' || c == '\r' || c == ' '
    || c == '\U{A0}' || c == '\U{1680}' || ('\U{2000}' <= c <= '\U{200A}')
    || c == '\U{2028}' || c == '\U{2029}' || c == '\U{202F}' || c == '\U{205F}'
    || c == '\U{3000}' || c == '\U{FEFF}'
  }

  /** `s` with its leading white space removed. */
  function TrimStart(s: string): (r: string)
    ensures |r| <= |s| && r == s[|s| - |r|..]
    ensures forall i {:trigger IsWhitespace(s[i])} :: 0 <= i < |s| - |r| ==> IsWhitespace(s[i])
    ensures r != [] ==> !IsWhitespace(r[0])
  {
    if s != [] && IsWhitespace(s[0]) then TrimStart(s[1..]) else s
  }

  /** `s` with its trailing white space removed. */
  function TrimEnd(s: string): (r: string)
    ensures |r| <= |s| && r == s[..|r|]
    ensures forall i {:trigger IsWhitespace(s[i])} :: |r| <= i < |s| ==> IsWhitespace(s[i])
    ensures r != [] ==> !IsWhitespace(r[|r| - 1])
  {
    if s != [] && IsWhitespace(s[|s| - 1]) then TrimEnd(s[..|s| - 1]) else s
  }

  /** `String.prototype.trim`: the part of `s` between its leading and trailing
      white space. */
  function Trim(s: string): (r: string)
    ensures |r| <= |s|
    ensures r != [] ==> !IsWhitespace(r[0]) && !IsWhitespace(r[|r| - 1])
  {
    TrimEnd(TrimStart(s))
  }

  /** `trim` gives the empty string exactly when `s` is all white space. */
  lemma TrimEmpty(s: string)
    ensures Trim(s) == [] <==> forall i :: 0 <= i < |s| ==> IsWhitespace(s[i])
  {
    var t := TrimStart(s);
    var a := |s| - |t|;
    assert |t| > 0 ==> t[0] == s[a];
  }

  /** A prefix of a suffix of `s` is a slice of `s`. */
  lemma PrefixOfSuffix(s: string, t: string, r: string)
    requires |t| <= |s| && t == s[|s| - |t|..] && |r| <= |t| && r == t[..|r|]
    ensures |s| - |t| + |r| <= |s| && s[|s| - |t|..|s| - |t| + |r|] == r
  {
  }

  /** What `trim` keeps sits in its input right after the leading white space. */
  lemma TrimSlice(s: string)
    ensures var a, r := |s| - |TrimStart(s)|, Trim(s);
              a + |r| <= |s| && s[a..a + |r|] == r
  {
    var t := TrimStart(s);
    var r := Trim(s);
    assert r == TrimEnd(t);
    assert r == t[..|r|];
    PrefixOfSuffix(s, t, r);
  }

  /** Everything after what `trim` keeps is white space. */
  lemma TrimTail(s: string)
    ensures var a, r := |s| - |TrimStart(s)|, Trim(s);
              forall i :: a + |r| <= i < |s| ==> IsWhitespace(s[i])
  {
    var t := TrimStart(s);
    var a := |s| - |t|;
    var r := TrimEnd(t);
    assert t == s[a..];
    forall i | a + |r| <= i < |s| ensures IsWhitespace(s[i]) {
      assert IsWhitespace(t[i - a]);
    }
  }

  /** What `trim` keeps is one contiguous piece of its input, with only white
      space before and after it. */
  lemma TrimIsSlice(s: string)
    ensures var a, r := |s| - |TrimStart(s)|, Trim(s);
              && a + |r| <= |s| && s[a..a + |r|] == r
              && (forall i :: 0 <= i < a ==> IsWhitespace(s[i]))
              && (forall i :: a + |r| <= i < |s| ==> IsWhitespace(s[i]))
  {
    TrimSlice(s);
    TrimTail(s);
  }

  /** The replacement `/^(https?:\/\/)?(www\.)?/ -> ''`: at most one leading
      "http://" or "https://", then at most one leading "www.", and nothing else. */
  function Normalise(site: string): (r: string)
    ensures |r| <= |site| && r == site[|site| - |r|..]
    ensures var cut := site[..|site| - |r|];
              cut == "" || cut == "www." || cut == "http://" || cut == "https://" || cut == "http://www." || cut == "https://www."
    ensures !("http://" <= site) && !("https://" <= site) && !("www." <= site) ==> r == site
  {
    var scheme := if "https://" <= site then "https://" else if "http://" <= site then "http://" else "";
    var rest := site[|scheme|..];
    var www := if "www." <= rest then "www." else "";
    var r := rest[|www|..];
    assert site == scheme + www + r;
    assert site[..|site| - |r|] == scheme + www;
    assert "http://" + "www." == "http://www." && "https://" + "www." == "https://www.";
    r
  }

  /** After a leading "https://", Normalise cuts it and at most one "www.". */
  lemma NormaliseHttps(site: string)
    requires "https://" <= site
    ensures var cut := site[..|site| - |Normalise(site)|];
              && "https://" <= cut
              && ("https://www." <= site <==> cut == "https://www.")
    ensures !("http://" <= site) && !("http://www." <= site) && !("www." <= site)
  {
    assert site[0] == 'h' && site[4] == 's';
    assert !("http://" <= site);
    assert "https://www." <= site <==> "www." <= site[8..] by {
      if |site| >= 12 {
        assert site[8..][..4] == site[8..12];
      }
    }
  }

  /** After a leading "http://", Normalise cuts it and at most one "www.". */
  lemma NormaliseHttp(site: string)
    requires "http://" <= site
    ensures var cut := site[..|site| - |Normalise(site)|];
              && "http://" <= cut
              && ("http://www." <= site <==> cut == "http://www.")
    ensures !("https://" <= site) && !("https://www." <= site) && !("www." <= site)
  {
    assert site[0] == 'h' && site[4] == ':';
    assert !("https://" <= site);
    assert "http://www." <= site <==> "www." <= site[7..] by {
      if |site| >= 11 {
        assert site[7..][..4] == site[7..11];
      }
    }
  }

  /** A leading "www." with no scheme before it is cut, and nothing more. */
  lemma NormaliseWww(site: string)
    requires "www." <= site
    ensures site[..|site| - |Normalise(site)|] == "www."
    ensures !("https://" <= site) && !("https://www." <= site) && !("http://" <= site) && !("http://www." <= site)
  {
    assert site[0] == 'w';
    assert !("https://" <= site) && !("http://" <= site);
  }

  /** What is cut is exactly the leading scheme and "www." the input starts
      with: a scheme always goes, "www." goes when it follows the scheme or
      opens the input. */
  lemma NormaliseStrips(site: string)
    ensures var cut := site[..|site| - |Normalise(site)|];
              && ("https://" <= site ==> "https://" <= cut)
              && ("https://www." <= site ==> cut == "https://www.")
              && ("http://" <= site ==> "http://" <= cut)
              && ("http://www." <= site ==> cut == "http://www.")
              && ("www." <= site ==> cut == "www.")
  {
    if "https://" <= site {
      NormaliseHttps(site);
    } else if "http://" <= site {
      NormaliseHttp(site);
    } else if "www." <= site {
      NormaliseWww(site);
    } else {
      assert !("https://www." <= site) && !("http://www." <= site);
    }
  }

  /** Only one "www." goes. */
  lemma NormaliseOneWww()
    ensures Normalise("www.www.a.com") == "www.a.com"
  {
    var site := "www.www.a.com";
    assert site[0] == 'w' && site[4] == 'w';
    assert !("https://" <= site) && !("http://" <= site);
    assert site[..4] == "www.";
    assert site[4..] == "www.a.com";
  }

  /** Only one scheme goes, and a scheme is matched case-sensitively. */
  lemma NormaliseOneScheme()
    ensures Normalise("http://https://a.com") == "https://a.com"
    ensures Normalise("HTTP://a.com") == "HTTP://a.com"
  {
    var site := "http://https://a.com";
    assert site[4] == ':';
    assert !("https://" <= site);
    assert site[..7] == "http://";
    assert site[7..] == "https://a.com";
    assert site[7..][0] == 'h';
    assert !("www." <= site[7..]);
    var upper := "HTTP://a.com";
    assert upper[0] == 'H';
  }

  /** A site and limit accepted by the add button. */
  datatype NewSite = NewSite(site: string, timeLimit: int)

  /** The add button's check: the trimmed input is not empty and the parsed
      limit (None for `NaN`) is positive; the key is the normalised input. */
  function ValidateInput(siteInput: string, time: Option<int>): (r: Option<NewSite>)
    ensures r.Some? <==> (exists i :: 0 <= i < |siteInput| && !IsWhitespace(siteInput[i])) && time.Some? && time.value > 0
    ensures r.Some? ==> r.value.timeLimit == time.value && r.value.site == Normalise(Trim(siteInput))
  {
    TrimEmpty(siteInput);
    var site := Trim(siteInput);
    if site != [] && time.Some? && time.value > 0 then Some(NewSite(Normalise(site), time.value)) else None
  }

  /** The check comes before normalisation, so a bare scheme is accepted and
      becomes the empty key. */
  lemma EmptyKeyAccepted()
    ensures ValidateInput("https://", Some(5)) == Some(NewSite("", 5))
  {
    var s := "https://";
    assert !IsWhitespace(s[0]) && !IsWhitespace(s[|s| - 1]);
    assert TrimStart(s) == s;
    assert TrimEnd(s) == s;
    assert s <= s && s[|s|..] == "";
  }

  /** `addSite`: a fresh record for `site`, replacing any earlier one; the
      background is then notified with `siteAdded`. */
  method AddSite(store: Registry, site: string, timeLimit: int, today: string) returns (notice: Request)
    requires store.Valid()
    modifies store
    ensures store.Valid()
    ensures store.sites == old(store.sites)[site := Site(timeLimit, 0, today)]
    ensures store.keys == Upserted(old(store.keys), site)
    ensures notice == SiteAdded(site, timeLimit)
  {
    store.Put(site, Site(timeLimit, 0, today));
    notice := SiteAdded(site, timeLimit);
  }

  /** `deleteSite`: `site` alone is removed; the background is then notified with `siteDeleted`. */
  method DeleteSite(store: Registry, site: string) returns (notice: Request)
    requires store.Valid()
    modifies store
    ensures store.Valid()
    ensures store.sites == old(store.sites) - {site}
    ensures store.keys == Without(old(store.keys), site)
    ensures notice == SiteDeleted(site)
  {
    store.Remove(site);
    notice := SiteDeleted(site);
  }

  /** The add button's click handler. */
  method OnAddClick(store: Registry, siteInput: string, time: Option<int>, today: string) returns (notice: Option<Request>)
    requires store.Valid()
    modifies store
    ensures store.Valid()
    ensures ValidateInput(siteInput, time).None? ==>
              notice.None? && store.sites == old(store.sites) && store.keys == old(store.keys)
    ensures ValidateInput(siteInput, time).Some? ==>
              var n := ValidateInput(siteInput, time).value;
              && store.sites == old(store.sites)[n.site := Site(n.timeLimit, 0, today)]
              && store.keys == Upserted(old(store.keys), n.site)
              && notice == Some(SiteAdded(n.site, n.timeLimit))
  {
    TrimEmpty(siteInput);
    var site := Trim(siteInput);
    if site != [] && time.Some? && time.value > 0 {
      var cleanSite := Normalise(site);
      var sent := AddSite(store, cleanSite, time.value, today);
      notice := Some(sent);
    } else {
      notice := None;
    }
  }

  /** Writing the same record twice leaves the registry as one write does. */
  lemma UpsertTwice(keys: seq<string>, sites: map<string, Site>, site: string, record: Site)
    ensures Upserted(Upserted(keys, site), site) == Upserted(keys, site)
    ensures sites[site := record][site := record] == sites[site := record]
  {
  }

  /** A click on the add button followed, on the same day, by the background's
      handling of the `siteAdded` notice it sends: the background writes what the
      popup has already written, so the registry ends as after the click alone. */
  method AddAndNotify(engine: Engine, siteInput: string, time: Option<int>, today: string, now: int)
    returns (notice: Option<Request>)
    requires engine.Valid()
    modifies engine.store
    ensures engine.Valid()
    ensures ValidateInput(siteInput, time).None? ==>
              notice.None? && engine.store.sites == old(engine.store.sites) && engine.store.keys == old(engine.store.keys)
    ensures ValidateInput(siteInput, time).Some? ==>
              var n := ValidateInput(siteInput, time).value;
              && engine.store.sites == old(engine.store.sites)[n.site := Site(n.timeLimit, 0, today)]
              && engine.store.keys == Upserted(old(engine.store.keys), n.site)
              && notice == Some(SiteAdded(n.site, n.timeLimit))
  {
    notice := OnAddClick(engine.store, siteInput, time, today);
    if notice.Some? {
      var n := ValidateInput(siteInput, time).value;
      UpsertTwice(old(engine.store.keys), old(engine.store.sites), n.site, Site(n.timeLimit, 0, today));
      var _ := engine.OnMessage(notice.value, now, today);
    }
  }

  /** `Math.max(0, timeLimit - timeSpent)`: minutes left before the limit. */
  function TimeLeft(timeLimit: int, timeSpent: int): (r: int)
    ensures r >= 0
    ensures r == 0 <==> timeSpent >= timeLimit
    ensures r > 0 ==> timeSpent + r == timeLimit
  {
    if timeLimit - timeSpent > 0 then timeLimit - timeSpent else 0
  }

  predicate IsDigit(c: char)
  {
    '0' <= c <= '9'
  }

  predicate AllDigits(s: string)
  {
    forall i :: 0 <= i < |s| ==> IsDigit(s[i])
  }

  function DigitChar(d: int): (c: char)
    requires 0 <= d < 10
    ensures IsDigit(c) && c as int - '0' as int == d
  {
    ('0' as int + d) as char
  }

  /** How a template literal writes a non-negative integer: its decimal digits. */
  function Decimal(n: nat): (r: string)
    ensures r != [] && AllDigits(r)
    ensures r[0] == '0' <==> n == 0
    decreases n
  {
    if n < 10 then [DigitChar(n)] else Decimal(n / 10) + [DigitChar(n % 10)]
  }

  /** The number a string of decimal digits denotes. */
  function DigitsValue(ds: string): nat
    requires AllDigits(ds)
  {
    if ds == [] then 0 else DigitsValue(ds[..|ds| - 1]) * 10 + (ds[|ds| - 1] as int - '0' as int)
  }

  /** Reading back the digits of `n` gives `n`. */
  lemma {:induction false} DecimalValue(n: nat)
    ensures DigitsValue(Decimal(n)) == n
    decreases n
  {
    if n >= 10 {
      DecimalValue(n / 10);
      var ds := Decimal(n);
      assert ds[..|ds| - 1] == Decimal(n / 10);
    }
  }

  /** Length of the run of digits at the start of `s`. */
  function DigitRun(s: string): (k: nat)
    ensures k <= |s| && AllDigits(s[..k])
    ensures k < |s| ==> !IsDigit(s[k])
  {
    if s != [] && IsDigit(s[0]) then
      var k := 1 + DigitRun(s[1..]);
      assert s[..k] == [s[0]] + s[1..][..k - 1];
      k
    else 0
  }

  /** Digits followed by a non-digit are read as one number, up to that non-digit. */
  lemma {:induction false} DigitRunOf(ds: string, rest: string)
    requires AllDigits(ds) && (rest == [] || !IsDigit(rest[0]))
    ensures DigitRun(ds + rest) == |ds|
  {
    if ds != [] {
      assert (ds + rest)[1..] == ds[1..] + rest;
      DigitRunOf(ds[1..], rest);
    }
  }

  /** The digits of `n` followed by a non-digit are read back as `n`. */
  lemma ReadDecimal(n: nat, rest: string)
    requires rest == [] || !IsDigit(rest[0])
    ensures var ds := Decimal(n);
              && DigitRun(ds + rest) == |ds| > 0
              && (ds + rest)[..|ds|] == ds && (ds + rest)[|ds|..] == rest
              && DigitsValue(ds) == n
  {
    var ds := Decimal(n);
    DigitRunOf(ds, rest);
    assert (ds + rest)[..|ds|] == ds;
    assert (ds + rest)[|ds|..] == rest;
    DecimalValue(n);
  }

  /** JavaScript `Math.floor((timeLeft % 1) * 60)`. */
  function Seconds(timeLeft: int): (r: int)
    ensures r == 0
  {
    (timeLeft % 1) * 60
  }

  /** The remaining-time label: "Hh Mm" from an hour up, else "Mm Ss" from a
      minute up, else "Ss". */
  function Display(timeLeft: nat): string
  {
    var hours := timeLeft / 60;
    var minutes := timeLeft % 60;
    var seconds := Seconds(timeLeft);
    if hours > 0 then Decimal(hours) + "h " + Decimal(minutes) + "m"
    else if minutes > 0 then Decimal(minutes) + "m " + Decimal(seconds) + "s"
    else Decimal(seconds) + "s"
  }

  /** The three shapes a label can take. */
  datatype Form = HoursMinutes | MinutesSeconds | SecondsOnly

  /** A label as a reader takes it: its shape and the numbers it shows, the
      larger unit first ("<major>h <minor>m", "<major>m <minor>s", "<major>s"). */
  datatype Reading = Reading(form: Form, major: nat, minor: nat)
  {
    /** The time the label shows, in seconds. */
    function TotalSeconds(): nat
    {
      match form
      case HoursMinutes => major * 3600 + minor * 60
      case MinutesSeconds => major * 60 + minor
      case SecondsOnly => major
    }
  }

  /** How a reader takes a label: "<d>h <d>m", "<d>m <d>s" or "<d>s". */
  function ReadDisplay(text: string): Option<Reading>
  {
    var k := DigitRun(text);
    var rest := text[k..];
    if k == 0 then None
    else if rest == "s" then Some(Reading(SecondsOnly, DigitsValue(text[..k]), 0))
    else if |rest| < 2 then None
    else
      var more := rest[2..];
      var j := DigitRun(more);
      if j == 0 then None
      else if rest[..2] == "h " && more[j..] == "m" then Some(Reading(HoursMinutes, DigitsValue(text[..k]), DigitsValue(more[..j])))
      else if rest[..2] == "m " && more[j..] == "s" then Some(Reading(MinutesSeconds, DigitsValue(text[..k]), DigitsValue(more[..j])))
      else None
  }

  /** A label of the form "<digits>h <digits>m" is read as hours and minutes. */
  lemma ReadHoursMinutesForm(text: string, k: nat, j: nat)
    requires 0 < k == DigitRun(text) && |text[k..]| >= 2 && text[k..][..2] == "h "
    requires 0 < j == DigitRun(text[k..][2..]) && text[k..][2..][j..] == "m"
    ensures ReadDisplay(text) == Some(Reading(HoursMinutes, DigitsValue(text[..k]), DigitsValue(text[k..][2..][..j])))
  {
    var rest := text[k..];
    assert rest != "s";
    var more := rest[2..];
  }

  /** A label of the form "<digits>m <digits>s" is read as minutes and seconds. */
  lemma ReadMinutesSecondsForm(text: string, k: nat, j: nat)
    requires 0 < k == DigitRun(text) && |text[k..]| >= 2 && text[k..][..2] == "m "
    requires 0 < j == DigitRun(text[k..][2..]) && text[k..][2..][j..] == "s"
    ensures ReadDisplay(text) == Some(Reading(MinutesSeconds, DigitsValue(text[..k]), DigitsValue(text[k..][2..][..j])))
  {
    var rest := text[k..];
    assert rest != "s";
    var more := rest[2..];
    assert "m " != "h ";
  }

  /** Two digit runs each followed by a two-letter and a one-letter unit. */
  lemma ReadPair(text: string, d1: string, d2: string, u1: string, u2: string)
    requires d1 != [] && AllDigits(d1) && d2 != [] && AllDigits(d2)
    requires |u1| == 2 && !IsDigit(u1[0]) && |u2| == 1 && !IsDigit(u2[0])
    requires text == d1 + u1 + d2 + u2
    ensures var k := |d1|;
            && DigitRun(text) == k && text[..k] == d1 && text[k..][..2] == u1
            && DigitRun(text[k..][2..]) == |d2| && text[k..][2..][..|d2|] == d2 && text[k..][2..][|d2|..] == u2
  {
    var more := d2 + u2;
    var tail := u1 + more;
    assert text == d1 + tail;
    DigitRunOf(d1, tail);
    DigitRunOf(d2, u2);
    assert text[..|d1|] == d1 && text[|d1|..] == tail;
    assert tail[..2] == u1 && tail[2..] == more;
    assert more[..|d2|] == d2 && more[|d2|..] == u2;
  }

  /** Digits, "h ", digits, "m" reads as that many hours and minutes. */
  lemma ReadHoursMinutes(text: string, d1: string, d2: string)
    requires d1 != [] && AllDigits(d1) && d2 != [] && AllDigits(d2)
    requires text == d1 + "h " + d2 + "m"
    ensures ReadDisplay(text) == Some(Reading(HoursMinutes, DigitsValue(d1), DigitsValue(d2)))
  {
    ReadPair(text, d1, d2, "h ", "m");
    ReadHoursMinutesForm(text, |d1|, |d2|);
  }

  /** Digits, "m ", digits, "s" reads as that many minutes and seconds. */
  lemma ReadMinutesSeconds(text: string, d1: string, d2: string)
    requires d1 != [] && AllDigits(d1) && d2 != [] && AllDigits(d2)
    requires text == d1 + "m " + d2 + "s"
    ensures ReadDisplay(text) == Some(Reading(MinutesSeconds, DigitsValue(d1), DigitsValue(d2)))
  {
    ReadPair(text, d1, d2, "m ", "s");
    ReadMinutesSecondsForm(text, |d1|, |d2|);
  }

  /** From an hour up the label is hours and minutes. */
  lemma DisplayHours(timeLeft: nat)
    requires timeLeft >= 60
    ensures ReadDisplay(Display(timeLeft)) == Some(Reading(HoursMinutes, timeLeft / 60, timeLeft % 60))
  {
    var hours := timeLeft / 60;
    var minutes := timeLeft % 60;
    assert timeLeft * 60 == hours * 3600 + minutes * 60;
    ReadHoursMinutes(Display(timeLeft), Decimal(hours), Decimal(minutes));
    DecimalValue(hours);
    DecimalValue(minutes);
  }

  /** Under an hour, from a minute up, the label is minutes and seconds. */
  lemma DisplayMinutes(timeLeft: nat)
    requires 0 < timeLeft < 60
    ensures ReadDisplay(Display(timeLeft)) == Some(Reading(MinutesSeconds, timeLeft, 0))
  {
    ReadMinutesSeconds(Display(timeLeft), Decimal(timeLeft), Decimal(0));
    DecimalValue(timeLeft);
    DecimalValue(0);
  }

  /** What a label reading `r` must be to show `timeLeft` minutes: whole hours
      and the minutes under an hour from an hour up, the minutes and 0 seconds
      from a minute up, and 0 seconds otherwise. */
  predicate LabelShows(r: Reading, timeLeft: nat)
  {
    && r.TotalSeconds() == timeLeft * 60
    && (r.form == HoursMinutes <==> timeLeft >= 60)
    && (r.form == MinutesSeconds <==> 0 < timeLeft < 60)
    && (r.form == SecondsOnly <==> timeLeft == 0)
    && (r.form == HoursMinutes ==> r.minor < 60 && r.major * 60 + r.minor == timeLeft)
    && (r.form == MinutesSeconds ==> r.major == timeLeft && r.minor == 0)
    && (r.form == SecondsOnly ==> r.major == 0)
  }

  /** The label shows exactly the remaining time, in the form and with the
      fields the hour and minute counts call for. */
  lemma DisplayRoundTrip(timeLeft: nat)
    ensures ReadDisplay(Display(timeLeft)).Some? && LabelShows(ReadDisplay(Display(timeLeft)).value, timeLeft)
  {
    if timeLeft >= 60 {
      DisplayHours(timeLeft);
    } else if timeLeft > 0 {
      DisplayMinutes(timeLeft);
    } else {
      ReadDecimal(0, "s");
    }
  }

  /** The colour of the label. */
  datatype Colour = Red | Orange | Green

  /** Red under 5 minutes left, orange under 15, green otherwise. */
  function TimerColour(timeLeft: int): (c: Colour)
    ensures c == Red <==> timeLeft < 5
    ensures c == Orange <==> 5 <= timeLeft < 15
    ensures c == Green <==> 15 <= timeLeft
  {
    if timeLeft < 5 then Red else if timeLeft < 15 then Orange else Green
  }

  /** The CSS colour each bucket is drawn in; distinct buckets get distinct colours. */
  function Css(c: Colour): (css: string)
    ensures css == "#e74c3c" <==> c == Red
    ensures css == "#f39c12" <==> c == Orange
    ensures css == "#2ecc71" <==> c == Green
  {
    match c
    case Red => "#e74c3c"
    case Orange => "#f39c12"
    case Green => "#2ecc71"
  }

  function Urgency(c: Colour): nat
  {
    match c
    case Red => 2
    case Orange => 1
    case Green => 0
  }

  /** More time left never shows a more urgent colour. */
  lemma ColourMonotone(a: int, b: int)
    requires a <= b
    ensures Urgency(TimerColour(b)) <= Urgency(TimerColour(a))
  {
  }

  /** What a timer element shows once a `getTimeSpent` reply arrives: its text
      and its CSS colour. */
  datatype TimerView = TimerView(text: string, colour: string)

  /** `updateTimerDisplay`: nothing changes without a reply; otherwise the
      label is "(<remaining> left)" and the colour follows the minutes left. */
  function UpdateTimerDisplay(timeLimit: int, response: Option<int>): (r: Option<TimerView>)
    ensures r.None? <==> response.None?
    ensures r.Some? ==> (r.value.colour == "#e74c3c" <==> timeLimit - response.value < 5)
    ensures r.Some? ==> (r.value.colour == "#f39c12" <==> 5 <= timeLimit - response.value < 15)
    ensures r.Some? ==> (r.value.colour == "#2ecc71" <==> timeLimit - response.value >= 15)
    ensures r.Some? ==> var text, left := r.value.text, TimeLeft(timeLimit, response.value);
              && |text| >= 7 && text[..1] == "(" && text[|text| - 6..] == " left)"
              && ReadDisplay(text[1..|text| - 6]).Some?
              && LabelShows(ReadDisplay(text[1..|text| - 6]).value, left)
  {
    match response
    case None => None
    case Some(timeSpent) =>
      var timeLeft := TimeLeft(timeLimit, timeSpent);
      var text := "(" + Display(timeLeft) + " left)";
      DisplayRoundTrip(timeLeft);
      assert text[1..|text| - 6] == Display(timeLeft);
      Some(TimerView(text, Css(TimerColour(timeLeft))))
  }

  /** A site the background blocks shows "0s" in red, and a label of "0s"
      means the site is at its limit. */
  lemma BlockedShowsZero(s: Site)
    ensures OverLimit(s) <==> Display(TimeLeft(s.timeLimit, s.timeSpent)) == "0s"
    ensures OverLimit(s) ==> TimerColour(TimeLeft(s.timeLimit, s.timeSpent)) == Red
  {
    var left := TimeLeft(s.timeLimit, s.timeSpent);
    DisplayRoundTrip(0);
    DisplayRoundTrip(left);
    assert Display(0) == "0s";
  }
}

=== FILE: registry.dfy ===
/**
 * The persisted `sites` object of the extension's synced storage: a map from
 * site key to that site's limit record, together with the order in which
 * `Object.keys` reports the keys (insertion order: an assignment to an existing
 * key keeps its place, a new key goes last, a deleted key disappears).
 */
module SiteRegistry {

  /** One tracked site: the daily limit and the usage, both in whole minutes,
      and the opaque day marker (`toDateString()`) of the last reset. */
  datatype Site = Site(timeLimit: int, timeSpent: int, lastReset: string)

  /** No key occurs twice in a key order. */
  predicate Distinct(keys: seq<string>)
  {
    forall i, j :: 0 <= i < j < |keys| ==> keys[i] != keys[j]
  }

  /** Key order after `sites[key] = value`. */
  function Upserted(keys: seq<string>, key: string): (r: seq<string>)
    ensures forall k :: k in r <==> k in keys || k == key
    ensures keys <= r && |r| <= |keys| + 1
    ensures Distinct(keys) ==> Distinct(r)
  {
    if key in keys then keys else keys + [key]
  }

  /** Key order after `delete sites[key]`. */
  function Without(keys: seq<string>, key: string): (r: seq<string>)
    ensures forall k :: k in r <==> k in keys && k != key
    ensures Distinct(keys) ==> Distinct(r)
    ensures key !in keys ==> r == keys
  {
    if keys == [] then []
    else if keys[0] == key then Without(keys[1..], key)
    else
      var rest := Without(keys[1..], key);
      assert Distinct(keys) ==> Distinct(keys[1..]) && keys[0] !in keys[1..];
      assert forall i :: 0 < i < |[keys[0]] + rest| ==> ([keys[0]] + rest)[i] == rest[i - 1];
      [keys[0]] + rest
  }

  /** Deleting a present key closes the gap it leaves: the other keys keep their order. */
  lemma {:induction false} WithoutAt(keys: seq<string>, i: int)
    requires Distinct(keys) && 0 <= i < |keys|
    ensures Without(keys, keys[i]) == keys[..i] + keys[i + 1..]
  {
    if i == 0 {
      assert keys[0] !in keys[1..];
      assert keys[..0] + keys[1..] == keys[1..];
    } else {
      assert Distinct(keys[1..]);
      WithoutAt(keys[1..], i - 1);
      assert keys[1..][i - 1] == keys[i];
      assert keys[1..][..i - 1] + keys[1..][i..] == keys[1..i] + keys[i + 1..];
      assert keys[..i] + keys[i + 1..] == [keys[0]] + (keys[1..i] + keys[i + 1..]);
    }
  }

  /**
   * The `sites` object. `keys` is its `Object.keys` order and `sites` its
   * contents; `Valid` ties the two together.
   */
  class Registry {
    var keys: seq<string>
    var sites: map<string, Site>

    ghost predicate Valid()
      reads this
    {
      Distinct(keys) && forall k :: k in keys <==> k in sites
    }

    /** `result.sites || {}`: nothing stored yet. */
    constructor ()
      ensures Valid() && keys == [] && sites == map[]
    {
      keys := [];
      sites := map[];
    }

    /** `sites[key] = site`. */
    method Put(key: string, site: Site)
      requires Valid()
      modifies this
      ensures Valid()
      ensures sites == old(sites)[key := site]
      ensures keys == Upserted(old(keys), key)
    {
      keys := Upserted(keys, key);
      sites := sites[key := site];
    }

    /** `delete sites[key]`; nothing happens when the key is absent. */
    method Remove(key: string)
      requires Valid()
      modifies this
      ensures Valid()
      ensures sites == old(sites) - {key}
      ensures keys == Without(old(keys), key)
    {
      keys := Without(keys, key);
      sites := sites - {key};
    }
  }
}

=== FILE: wrappers.dfy ===
/** The optional value used wherever the extension works with `null` or `undefined`. */
module Wrappers {

  datatype Option<+T> = None | Some(value: T)
}
